=== FILE: README.md ===
# Telemetry sender: dispatch and outcome logic

A Dafny model of the metrics `Sender` of the HockeySDK for Android. The sender
drains a queue of persisted telemetry files and posts each to the ingestion
endpoint. A trigger is dropped while ten or more requests are in flight. Each response code is
classified as expected, recoverable or unexpected. The file is then deleted or
made available again, and after a success the sender triggers itself again so
that one trigger drains the whole queue.

The model is sequential and functional:

- `Sender.SenderState` holds the in-flight counter, the persistence as an
  `Option` (the weak reference: `None` when never set or already released) and
  the optional custom server URL. `Sender.Initial` is the state the constructor creates (Sender.java:75-77):
  counter 0, no persistence, no custom URL.
- Each source method is a pure function. The classifiers return a `bool`,
  `Connection.CreateConnection` returns an optional request descriptor, and
  `Sender.LoadData` returns a `Loaded` (the loaded text, the new state and its
  events). The dispatching operations (`OnResponse`, `Send`,
  `SendAvailableFiles`, `TriggerSending`) return a `Step`. A `Step` holds the new
  state, the visible events in order (request attempt, requeue, delete, response
  read, unexpected response logged) and whether the response handler called
  `triggerSending` again (`chained`). `Sender.Run` returns a `Trace` of the final
  state and all events.
- The transport outcome of a request (a status code, or an I/O error) and the
  platform's URL parsing and connection opening are inputs (`Transport`,
  `Connection.Network`).
- `Sender.Run` is one external trigger plus every dispatch it chains into. It
  takes a script of transport outcomes.
- The persistence is an external collaborator, and `Persistence.java` is not part
  of this model. `Persistence.Store` is an abstract stand-in for the four
  operations the sender uses:
  - `nextAvailableFileInDirectory` hands out the first unclaimed file and marks it
    claimed;
  - `load` reads a file;
  - `deleteFile` removes a file;
  - `makeAvailable` un-claims a file.

Modules: `Wrappers` (Option), `StatusCodes` (classifiers), `Persistence`
(store stand-in), `Connection` (URL choice and request settings), `Sender`
(operations), `SenderProperties` (lemmas across operations and runs).

Three behaviours of the code are easy to misread; the model keeps them as written:

- A file whose persisted text is empty is deleted by `loadData`
  (Sender.java:175-177), but `sendAvailableFiles` then tests only that the text is
  not null (Sender.java:127), so the empty text is still sent
  (`SenderProperties.EmptyPayloadIsDeletedAndStillSent`).
- The doc comment of `createConnection` (Sender.java:185-186) says a custom URL
  that cannot be used falls back to the default endpoint. In the code a custom URL
  that fails to parse makes `new URL(...)` throw inside the `try`, so no
  connection is created and the `url == null` fallback at Sender.java:199-201 can
  never run (`Connection.MalformedCustomUrlGivesNoConnection`,
  `SenderProperties.MalformedCustomUrlSendsNothing`).
- When no connection can be made, the file that `sendAvailableFiles` claimed at
  Sender.java:123 is neither sent, made available nor deleted, so it stays
  claimed and is not handed out again (`SenderProperties.NoConnectionLeavesFileClaimed`).

The response handler never throws an I/O error: reading the body catches its own
errors. So the counter is decremented exactly once on each path of `send`, and
never twice.

## Model

| member | source | states |
|---|---|---|
| StatusCodes.Contains | hockeysdk/src/main/java/net/hockeyapp/android/metrics/Sender.java:267-268 | the list search is true exactly when the code is a member of the list |
| StatusCodes.IsRecoverableError | hockeysdk/src/main/java/net/hockeyapp/android/metrics/Sender.java:260-269 | a code is recoverable iff it is one of 408, 429, 500, 503, 511 |
| StatusCodes.IsExpected | hockeysdk/src/main/java/net/hockeyapp/android/metrics/Sender.java:277-279 | a code is expected iff it is one of 200, 201, 202, 203 (OK through Non-Authoritative) |
| StatusCodes.Classify | hockeysdk/src/main/java/net/hockeyapp/android/metrics/Sender.java:231-250 | testing recoverable first and expected second gives Success exactly for expected codes, RecoverableError exactly for recoverable codes, UnexpectedError for all others |
| StatusCodes.ClassifierPartition | hockeysdk/src/main/java/net/hockeyapp/android/metrics/Sender.java:260-279 | no code is both expected and recoverable, so success, recoverable error and unexpected error partition the codes |
| StatusCodes.ClassificationExamples | hockeysdk/src/main/java/net/hockeyapp/android/metrics/Sender.java:260-279 | 200 and 203 succeed; 408, 429, 500, 503, 511 are recoverable; 199, 204, 400, 401, 404, 502 are unexpected |
| Connection.CreateConnection | hockeysdk/src/main/java/net/hockeyapp/android/metrics/Sender.java:191-216 | a connection exists iff the chosen URL (custom if set, else the default) parses and opening succeeds; it targets that URL, with POST, application/x-json-stream, read timeout 10000, connect timeout 15000, output and input on, caches off |
| Connection.MalformedCustomUrlGivesNoConnection | hockeysdk/src/main/java/net/hockeyapp/android/metrics/Sender.java:194-215 | a custom URL that does not parse gives no connection; the fallback to the default URL is never taken |
| Connection.DefaultEndpointWhenNoCustomUrl | hockeysdk/src/main/java/net/hockeyapp/android/metrics/Sender.java:195-204 | without a custom URL the connection goes to https://gate.hockeyapp.net/v2/track |
| Sender.SetPersistence | hockeysdk/src/main/java/net/hockeyapp/android/metrics/Sender.java:403-405 | afterwards the persistence reads back as the given one; counter and custom URL are untouched |
| Sender.ReleasePersistence | hockeysdk/src/main/java/net/hockeyapp/android/metrics/Sender.java:390-396 | once the referenced persistence is gone the getter yields none; counter and custom URL are untouched |
| Sender.SetCustomServerUrl | hockeysdk/src/main/java/net/hockeyapp/android/metrics/Sender.java:425-427 | afterwards the custom URL reads back as the given one; counter and persistence are untouched |
| Sender.OnResponse | hockeysdk/src/main/java/net/hockeyapp/android/metrics/Sender.java:226-252 | the counter drops by exactly one; with persistence there is exactly one queue action, requeue on a recoverable code and delete otherwise, and none without persistence; the handler chains iff the code is expected; the body is logged as unexpected iff the code is neither expected nor recoverable |
| Sender.Send | hockeysdk/src/main/java/net/hockeyapp/android/metrics/Sender.java:140-161 | with a missing connection, file or payload nothing changes; otherwise the first event is the request with one more request in flight, and the counter ends where it began; on a response with persistence present there is exactly one queue action, requeue on a recoverable code and delete otherwise, applied to the persistence; on an I/O error the file is made available exactly once and never deleted; without persistence there is no queue action; it chains iff the response is expected |
| Sender.LoadData | hockeysdk/src/main/java/net/hockeyapp/android/metrics/Sender.java:169-182 | no text when persistence or file is missing; otherwise exactly the text the persistence loads; the file is deleted iff that text is empty, and nothing else changes |
| Sender.SendAvailableFiles | hockeysdk/src/main/java/net/hockeyapp/android/metrics/Sender.java:121-131 | a no-op without persistence or with no available file; counter unchanged; at most one request per dispatch, made iff a file is available, its text loads and a connection exists; its events begin with the deletion of an empty text, if any, followed by the request carrying the first available file and exactly its loaded text with one more request in flight; it chains iff the request met an expected code |
| Sender.TriggerSending | hockeysdk/src/main/java/net/hockeyapp/android/metrics/Sender.java:84-99 | at or above 10 requests in flight the trigger changes nothing and starts nothing; below, it is one dispatch; the counter is unchanged |
| Sender.Run | hockeysdk/src/main/java/net/hockeyapp/android/metrics/Sender.java:245-247 | a trigger and all the dispatches it chains into leave the counter where it began; each request is made with exactly one more in flight |
| SenderProperties.CounterNeverNegative | hockeysdk/src/main/java/net/hockeyapp/android/metrics/Sender.java:140-161 | starting from a non-negative counter, a run never leaves it negative and each request sees at least one in flight |
| SenderProperties.ReleasedPersistenceIsNoOp | hockeysdk/src/main/java/net/hockeyapp/android/metrics/Sender.java:121-131 | with the persistence released, a trigger and its whole run do nothing |
| SenderProperties.OnResponseIdempotent | hockeysdk/src/main/java/net/hockeyapp/android/metrics/Sender.java:231-241 | handling the same code for the same file twice performs the same queue action (none without persistence) and leaves the persistence as handling it once |
| SenderProperties.TriggerSendingPreservesValid | hockeysdk/src/main/java/net/hockeyapp/android/metrics/Sender.java:121-131 | a trigger keeps every file in at most one of available, claimed, deleted |
| SenderProperties.RunPreservesValid | hockeysdk/src/main/java/net/hockeyapp/android/metrics/Sender.java:245-247 | a whole chained run keeps the persistence well formed |
| SenderProperties.FailedDispatchRequeues | hockeysdk/src/main/java/net/hockeyapp/android/metrics/Sender.java:150-158 | a dispatch of a non-empty file that meets a recoverable code or an I/O error returns that file to the available files (the persistence stand-in appends it), and does not chain |
| SenderProperties.SuccessfulDispatch | hockeysdk/src/main/java/net/hockeyapp/android/metrics/Sender.java:121-131 | a dispatch that meets an expected code removes the first available file, records it deleted, and chains, also when its text is empty |
| SenderProperties.DrainChaining | hockeysdk/src/main/java/net/hockeyapp/android/metrics/Sender.java:245-247 | with every response expected and one response per available file, one trigger deletes every available file and leaves none available, with no further trigger |
| SenderProperties.ThreeBatchesDrain | hockeysdk/src/main/java/net/hockeyapp/android/metrics/Sender.java:245-247 | three queued files and one trigger answered by three 200 responses: exactly those three are deleted |
| SenderProperties.RunDeletesOnlyClaimedOrAvailable | hockeysdk/src/main/java/net/hockeyapp/android/metrics/Sender.java:238-241 | a run deletes only files that were available, claimed or already deleted |
| SenderProperties.TriggerSendingDeletesOnlyClaimedOrAvailable | hockeysdk/src/main/java/net/hockeyapp/android/metrics/Sender.java:121-131 | a trigger deletes, and leaves available or claimed, only files that were already known to the persistence |
| SenderProperties.EmptyPayloadIsDeletedAndStillSent | hockeysdk/src/main/java/net/hockeyapp/android/metrics/Sender.java:121-131 | an empty persisted text is deleted on loading and is then still sent as a request |
| SenderProperties.NoConnectionLeavesFileClaimed | hockeysdk/src/main/java/net/hockeyapp/android/metrics/Sender.java:123-129 | without a connection the claimed file is not sent, returned or deleted |
| SenderProperties.MalformedCustomUrlSendsNothing | hockeysdk/src/main/java/net/hockeyapp/android/metrics/Sender.java:194-215 | with a custom URL that does not parse, a trigger issues no request and does not chain |

## Left out

- Concurrency: each `AsyncTask` runs as a synchronous step, and the counter's atomicity is not modelled. The cap check in `triggerSending` (Sender.java:85) and the increment inside the background task (Sender.java:143) are not atomic together, so in the source several triggers can pass the check before any increments and more than ten requests can be in flight; sequential runs cannot show this. A chained trigger runs after the dispatch that asked for it. Interleavings of concurrent dispatches are not modelled, so the counter stays within one of its starting value.
- Connection.CreateConnection: a custom URL whose scheme is not HTTP(S) (`file:`, `ftp:`, `jar:`) makes the cast to `HttpURLConnection` at Sender.java:204 throw a `ClassCastException`, which the `catch` of `IOException` at Sender.java:212 does not catch, so it escapes the background task; the model has no escaping-exception outcome and yields a request descriptor for such a URL when it parses and opens.
- Sender.Run: the platform's URL parsing and connection opening (`Network`) is fixed for the whole run, so a run where opening succeeds for one dispatch and fails for a later one is not modelled.
- Sender.Run: the counter is an unbounded `int`, so 32-bit wrap-around is not modelled. A run never moves the counter more than one above its start, so it cannot overflow.
- Weak reference: the persistence is read once per operation. The model does not cover the reference being cleared between two `getPersistence` calls inside one method.
- `triggerSendingForTesting`: a test hook that reserves a slot before `send` reserves another.
- `logRequest` and `getWriter`: payload writing, gzip wrapping and the platform version check are byte-stream plumbing.
- `readResponse` and `onUnexpected` stream reading: only their occurrence is modelled, as the `ReadResponse` and `LogUnexpected` events.
- HTTP I/O (`connect`, `getResponseCode`): these are the `Transport` input. URL parsing and `openConnection` are the `Network` input.
- All logging.
- Persistence internals: `Persistence.java` is not part of this model. The order of available files and the meaning of claimed files are an abstraction of its directory listing and served-file set.

=== FILE: connection.dfy ===
/**
 * Construction of the request to the ingestion endpoint: which URL is used,
 * and the method, content type and timeouts the request carries. URL parsing
 * and opening the connection are outside the model; they appear as the
 * `Network` inputs.
 */
module Connection {
  import opened Wrappers

  const DEFAULT_ENDPOINT_URL: string := "https://gate.hockeyapp.net/v2/track"
  const DEFAULT_SENDER_READ_TIMEOUT: int := 10 * 1000
  const DEFAULT_SENDER_CONNECT_TIMEOUT: int := 15 * 1000
  const REQUEST_METHOD: string := "POST"
  const CONTENT_TYPE: string := "application/x-json-stream"

  /** The settings of an opened connection, before anything is sent on it. */
  datatype Request = Request(
    url: string,
    requestMethod: string,
    contentType: string,
    readTimeout: int,
    connectTimeout: int,
    doOutput: bool,
    doInput: bool,
    useCaches: bool)

  /**
   * What the platform does with a URL: `wellFormed` says which texts parse as a
   * URL (any other text makes the parser throw), and `opens` says whether
   * opening a connection succeeds or throws an I/O error.
   */
  datatype Network = Network(wellFormed: string -> bool, opens: bool)

  /** Parsing a URL text yields the URL, or none when the parser throws; it never yields a null URL. */
  function ParseUrl(text: string, net: Network): (r: Option<string>)
    ensures r.Some? <==> net.wellFormed(text)
    ensures r.Some? ==> r.value == text
  {
    if net.wellFormed(text) then Some(text) else None
  }

  /**
   * The connection the sender creates: to the custom URL when one is set,
   * otherwise to the default endpoint. A throwing parse or open is caught and
   * yields no connection. The source's fallback to the default URL when the
   * parsed custom URL is null is never taken, because parsing throws instead
   * of returning null.
   */
  function CreateConnection(customServerUrl: Option<string>, net: Network): (r: Option<Request>)
    ensures r.Some? <==> net.opens && net.wellFormed(customServerUrl.GetOr(DEFAULT_ENDPOINT_URL))
    ensures r.Some? ==> r.value.url == customServerUrl.GetOr(DEFAULT_ENDPOINT_URL)
    ensures r.Some? ==> r.value.requestMethod == "POST" && r.value.contentType == "application/x-json-stream"
    ensures r.Some? ==> r.value.readTimeout == 10000 && r.value.connectTimeout == 15000
    ensures r.Some? ==> r.value.doOutput && r.value.doInput && !r.value.useCaches
  {
    var url :=
      match customServerUrl
      case None => ParseUrl(DEFAULT_ENDPOINT_URL, net)
      case Some(custom) => ParseUrl(custom, net);
    if url.None? || !net.opens then None
    else
      Some(Request(url.value, REQUEST_METHOD, CONTENT_TYPE,
                   DEFAULT_SENDER_READ_TIMEOUT, DEFAULT_SENDER_CONNECT_TIMEOUT,
                   true, true, false))
  }

  /**
   * A custom URL that does not parse gives no connection at all, even when the
   * default endpoint would parse and open: there is no fallback.
   */
  lemma MalformedCustomUrlGivesNoConnection(custom: string, net: Network)
    requires !net.wellFormed(custom)
    ensures CreateConnection(Some(custom), net) == None
  {
  }

  /** Without a custom URL, and when parsing and opening succeed, the request goes to the default endpoint. */
  lemma DefaultEndpointWhenNoCustomUrl(net: Network)
    requires net.opens && net.wellFormed(DEFAULT_ENDPOINT_URL)
    ensures CreateConnection(None, net).Some?
    ensures CreateConnection(None, net).value.url == "https://gate.hockeyapp.net/v2/track"
  {
  }
}

=== FILE: persistence.dfy ===
/**
 * An abstract stand-in for the persistence layer the sender drains. Only its
 * four operations used by the sender are modelled: hand out the next available
 * file (marking it claimed), load a file's contents, delete a file, and make a
 * claimed file available again.
 */
module Persistence {
  import opened Wrappers

  /** Handle of one persisted batch file. */
  datatype File = File(id: nat)

  /**
   * `available` lists the files on disk that are not claimed, in the order the
   * directory listing yields them; `claimed` holds the files handed out and not
   * yet returned or deleted; `deleted` records the files removed from disk;
   * `contents` maps each readable file to its persisted text.
   */
  datatype Store = Store(available: seq<File>, claimed: set<File>, deleted: set<File>, contents: map<File, string>)

  predicate Distinct(xs: seq<File>) {
    forall i, j :: 0 <= i < j < |xs| ==> xs[i] != xs[j]
  }

  /** A file is in at most one of the three states, and listed at most once. */
  predicate Valid(st: Store) {
    && Distinct(st.available)
    && (forall f :: f in st.available ==> f !in st.claimed && f !in st.deleted)
    && st.claimed !! st.deleted
  }

  /** `xs` with every occurrence of `f` removed. */
  function Without(xs: seq<File>, f: File): (r: seq<File>)
    ensures forall g :: g in r <==> g in xs && g != f
    ensures f !in xs ==> r == xs
    ensures Distinct(xs) ==> Distinct(r)
  {
    if |xs| == 0 then []
    else if xs[0] == f then Without(xs[1..], f)
    else
      var rest := Without(xs[1..], f);
      assert Distinct(xs) ==> xs[0] !in xs[1..];
      [xs[0]] + rest
  }

  /** Hands out the first available file and marks it claimed; none when nothing is available. */
  function NextAvailable(st: Store): (r: (Option<File>, Store))
    ensures r.0.None? <==> |st.available| == 0
    ensures r.0.None? ==> r.1 == st
    ensures r.0.Some? ==> st.available == [r.0.value] + r.1.available
    ensures r.0.Some? ==> r.1.claimed == st.claimed + {r.0.value}
    ensures r.1.deleted == st.deleted && r.1.contents == st.contents
    ensures Valid(st) ==> Valid(r.1)
  {
    if |st.available| == 0 then (None, st)
    else
      var f := st.available[0];
      (Some(f), st.(available := st.available[1..], claimed := st.claimed + {f}))
  }

  /** Returns a claimed file to the available files; any other file is left as it is. */
  function MakeAvailable(st: Store, f: File): (r: Store)
    ensures f in st.claimed ==> f in r.available && f !in r.claimed
    ensures f !in st.claimed ==> r == st
    ensures forall g :: g != f ==> (g in r.available <==> g in st.available)
    ensures r.claimed == st.claimed - {f}
    ensures r.deleted == st.deleted && r.contents == st.contents
    ensures Valid(st) ==> Valid(r)
  {
    if f in st.claimed then st.(available := st.available + [f], claimed := st.claimed - {f})
    else st
  }

  /** Removes a file from disk: it is neither available nor claimed nor readable afterwards. */
  function DeleteFile(st: Store, f: File): (r: Store)
    ensures f !in r.available && f !in r.claimed && f in r.deleted && f !in r.contents
    ensures forall g :: g != f ==> (g in r.available <==> g in st.available)
    ensures r.claimed == st.claimed - {f} && r.deleted == st.deleted + {f}
    ensures forall g :: g != f && g in st.contents ==> g in r.contents && r.contents[g] == st.contents[g]
    ensures Valid(st) ==> Valid(r)
  {
    Store(Without(st.available, f), st.claimed - {f}, st.deleted + {f}, st.contents - {f})
  }

  /** The persisted text of a file, or none when the file cannot be read. */
  function Load(st: Store, f: File): (r: Option<string>)
    ensures r.Some? <==> f in st.contents
    ensures r.Some? ==> r.value == st.contents[f]
  {
    if f in st.contents then Some(st.contents[f]) else None
  }

  /** Returning a file twice has the effect of returning it once. */
  lemma MakeAvailableIdempotent(st: Store, f: File)
    ensures MakeAvailable(MakeAvailable(st, f), f) == MakeAvailable(st, f)
  {
  }

  /** Deleting a file twice has the effect of deleting it once. */
  lemma DeleteFileIdempotent(st: Store, f: File)
    ensures DeleteFile(DeleteFile(st, f), f) == DeleteFile(st, f)
  {
  }
}

=== FILE: sender.dfy ===
/**
 * The sender's dispatch and outcome logic as a sequential state machine.
 *
 * The sender's own state is the in-flight request counter, a non-owning
 * reference to the persistence (absent when never set or when its owner has
 * released it) and an optional custom endpoint URL. Each operation is a pure
 * function from a state and its external inputs (the transport outcome of the
 * request, the platform's URL and connection behaviour) to a `Step`: the new
 * state, the externally visible events in order, and whether the operation
 * asked for another dispatch (`chained`), which the source does by calling
 * `triggerSending` from the response handler.
 */
module Sender {
  import opened Wrappers
  import opened StatusCodes
  import opened Persistence
  import opened Connection

  /** The largest number of requests allowed in flight before triggers are dropped. */
  const MAX_REQUEST_COUNT: int := 10

  /**
   * The counter is an `int`, like the source's atomic integer: nothing in the
   * type keeps the response handler from taking it below zero when called alone.
   */
  datatype SenderState = SenderState(requestCount: int, persistence: Option<Store>, customServerUrl: Option<string>)

  /** How a request ends: with a response code, or with an I/O error before one is read. */
  datatype Transport = Responded(code: int) | IOFailure

  /** What the sender does that is visible outside it. */
  datatype Event =
    | Attempt(file: File, payload: string, inFlight: int)  // connect and read the response code
    | Requeue(file: File)                                   // persistence.makeAvailable
    | Delete(file: File)                                    // persistence.deleteFile
    | ReadResponse                                          // read the body of an expected response
    | LogUnexpected(code: int)                              // read and log the body of an unexpected response

  datatype Step = Step(sender: SenderState, events: seq<Event>, chained: bool)

  /** A freshly constructed sender: no request in flight, no persistence, no custom URL. */
  const Initial: SenderState := SenderState(0, None, None)

  /** The queue actions among `evs`, in order. */
  function QueueActions(evs: seq<Event>): (r: seq<Event>)
    ensures forall e :: e in r <==> e in evs && (e.Requeue? || e.Delete?)
  {
    if |evs| == 0 then []
    else if evs[0].Requeue? || evs[0].Delete? then [evs[0]] + QueueActions(evs[1..])
    else QueueActions(evs[1..])
  }

  lemma {:induction false} QueueActionsAppend(a: seq<Event>, b: seq<Event>)
    ensures QueueActions(a + b) == QueueActions(a) + QueueActions(b)
    decreases |a|
  {
    if |a| > 0 {
      assert (a + b)[1..] == a[1..] + b;
      QueueActionsAppend(a[1..], b);
    } else {
      assert a + b == b;
    }
  }

  /** What the weak reference yields: the persistence, or none when unset or released. */
  function GetPersistence(s: SenderState): Option<Store> {
    s.persistence
  }

  function SetPersistence(s: SenderState, st: Store): (r: SenderState)
    ensures GetPersistence(r) == Some(st)
    ensures RequestCount(r) == RequestCount(s) && GetCustomServerUrl(r) == GetCustomServerUrl(s)
  {
    s.(persistence := Some(st))
  }

  /** The owner of the persistence released it, so the weak reference now yields nothing. */
  function ReleasePersistence(s: SenderState): (r: SenderState)
    ensures GetPersistence(r) == None
    ensures RequestCount(r) == RequestCount(s) && GetCustomServerUrl(r) == GetCustomServerUrl(s)
  {
    s.(persistence := None)
  }

  function RequestCount(s: SenderState): int {
    s.requestCount
  }

  function GetCustomServerUrl(s: SenderState): Option<string> {
    s.customServerUrl
  }

  function SetCustomServerUrl(s: SenderState, url: Option<string>): (r: SenderState)
    ensures GetCustomServerUrl(r) == url
    ensures RequestCount(r) == RequestCount(s) && GetPersistence(r) == GetPersistence(s)
  {
    s.(customServerUrl := url)
  }

  /**
   * Handles the response code of a request for `f`: releases the request's slot,
   * returns the file to the persistence on a recoverable error and deletes it
   * otherwise, then reads the body and asks for another dispatch on an expected
   * code, or logs the body of an unexpected one.
   */
  function OnResponse(s: SenderState, code: int, f: File): (r: Step)
    ensures r.sender.requestCount == s.requestCount - 1
    ensures r.sender.customServerUrl == s.customServerUrl
    ensures r.sender.persistence.Some? <==> s.persistence.Some?
    ensures s.persistence.None? ==> QueueActions(r.events) == []
    ensures s.persistence.Some? && IsRecoverableError(code) ==>
      QueueActions(r.events) == [Requeue(f)] && r.sender.persistence == Some(MakeAvailable(s.persistence.value, f))
    ensures s.persistence.Some? && !IsRecoverableError(code) ==>
      QueueActions(r.events) == [Delete(f)] && r.sender.persistence == Some(DeleteFile(s.persistence.value, f))
    ensures r.chained <==> IsExpected(code)
    ensures ReadResponse in r.events <==> Classify(code) == Success
    ensures LogUnexpected(code) in r.events <==> Classify(code) == UnexpectedError
    ensures forall e :: e in r.events ==> !e.Attempt?
  {
    var s1 := s.(requestCount := s.requestCount - 1);
    if IsRecoverableError(code) then
      match GetPersistence(s1)
      case None => Step(s1, [], false)
      case Some(st) => Step(s1.(persistence := Some(MakeAvailable(st, f))), [Requeue(f)], false)
    else
      var deleted :=
        match GetPersistence(s1)
        case None => Step(s1, [], false)
        case Some(st) => Step(s1.(persistence := Some(DeleteFile(st, f))), [Delete(f)], false);
      QueueActionsAppend(deleted.events, [ReadResponse]);
      QueueActionsAppend(deleted.events, [LogUnexpected(code)]);
      if IsExpected(code) then Step(deleted.sender, deleted.events + [ReadResponse], true)
      else Step(deleted.sender, deleted.events + [LogUnexpected(code)], false)
  }

  /**
   * Sends `payload` of `file` on `connection`. With any of the three missing it
   * does nothing. Otherwise it takes a request slot, and either hands the
   * response code to `OnResponse` or, on an I/O error, releases the slot and
   * returns the file to the persistence.
   */
  function Send(s: SenderState, connection: Option<Request>, file: Option<File>, payload: Option<string>, t: Transport): (r: Step)
    ensures connection.None? || file.None? || payload.None? ==> r == Step(s, [], false)
    ensures r.sender.requestCount == s.requestCount
    ensures r.sender.customServerUrl == s.customServerUrl
    ensures r.sender.persistence.Some? <==> s.persistence.Some?
    ensures connection.Some? && file.Some? && payload.Some? ==>
      |r.events| > 0 && r.events[0] == Attempt(file.value, payload.value, s.requestCount + 1)
    ensures forall i :: 0 < i < |r.events| ==> !r.events[i].Attempt?
    ensures connection.Some? && file.Some? && payload.Some? && t.IOFailure? && s.persistence.Some? ==>
      QueueActions(r.events) == [Requeue(file.value)]
      && r.sender.persistence == Some(MakeAvailable(s.persistence.value, file.value))
    ensures connection.Some? && file.Some? && payload.Some? && t.Responded? && s.persistence.Some? ==>
      && QueueActions(r.events) == (if IsRecoverableError(t.code) then [Requeue(file.value)] else [Delete(file.value)])
      && r.sender.persistence == Some(if IsRecoverableError(t.code) then MakeAvailable(s.persistence.value, file.value)
                                      else DeleteFile(s.persistence.value, file.value))
    ensures s.persistence.None? ==> QueueActions(r.events) == []
    ensures r.chained <==> connection.Some? && file.Some? && payload.Some? && t.Responded? && IsExpected(t.code)
  {
    if connection.None? || file.None? || payload.None? then Step(s, [], false)
    else
      var f := file.value;
      var s1 := s.(requestCount := s.requestCount + 1);
      var attempt := Attempt(f, payload.value, s1.requestCount);
      match t
      case Responded(code) =>
        var handled := OnResponse(s1, code, f);
        QueueActionsAppend([attempt], handled.events);
        Step(handled.sender, [attempt] + handled.events, handled.chained)
      case IOFailure =>
        var s2 := s1.(requestCount := s1.requestCount - 1);
        match GetPersistence(s2)
        case None => Step(s2, [attempt], false)
        case Some(st) =>
          QueueActionsAppend([attempt], [Requeue(f)]);
          Step(s2.(persistence := Some(MakeAvailable(st, f))), [attempt, Requeue(f)], false)
  }

  /** The result of `LoadData`: the loaded text and the state after it. */
  datatype Loaded = Loaded(payload: Option<string>, sender: SenderState, events: seq<Event>)

  /**
   * Reads a file through the persistence. Gives nothing when the persistence or
   * the file is missing; otherwise gives what the persistence loads, and deletes
   * the file when that text is empty.
   */
  function LoadData(s: SenderState, file: Option<File>): (r: Loaded)
    ensures s.persistence.None? || file.None? ==> r == Loaded(None, s, [])
    ensures s.persistence.Some? && file.Some? ==> r.payload == Load(s.persistence.value, file.value)
    ensures s.persistence.Some? && file.Some? ==>
      (r.events == [Delete(file.value)] <==> r.payload == Some(""))
    ensures s.persistence.Some? && file.Some? && r.payload == Some("") ==>
      r.sender == s.(persistence := Some(DeleteFile(s.persistence.value, file.value)))
    ensures r.payload != Some("") ==> r.sender == s && r.events == []
  {
    match GetPersistence(s)
    case None => Loaded(None, s, [])
    case Some(st) =>
      match file
      case None => Loaded(None, s, [])
      case Some(f) =>
        var payload := Load(st, f);
        if payload.Some? && |payload.value| == 0 then
          Loaded(payload, s.(persistence := Some(DeleteFile(st, f))), [Delete(f)])
        else Loaded(payload, s, [])
  }

  /**
   * One dispatch: claims the next available file, loads it and creates a
   * connection, and sends when both the loaded text and the connection exist.
   * The only guard on the text is that it exists, so a file emptied and deleted
   * by `LoadData` is still sent.
   */
  function SendAvailableFiles(s: SenderState, net: Network, t: Transport): (r: Step)
    ensures s.persistence.None? ==> r == Step(s, [], false)
    ensures r.sender.requestCount == s.requestCount
    ensures r.sender.customServerUrl == s.customServerUrl
    ensures r.sender.persistence.Some? <==> s.persistence.Some?
    ensures s.persistence.Some? && |s.persistence.value.available| == 0 ==>
      r.events == [] && !r.chained && r.sender == s
    ensures forall e :: e in r.events && e.Attempt? ==> e.inFlight == s.requestCount + 1
    ensures CreateConnection(s.customServerUrl, net).None? ==> forall e :: e in r.events ==> !e.Attempt?
    ensures s.persistence.Some? ==>
      var st := s.persistence.value;
      (exists e :: e in r.events && e.Attempt?)
        <==> |st.available| > 0 && st.available[0] in st.contents && CreateConnection(s.customServerUrl, net).Some?
    ensures s.persistence.Some? ==>
      var st := s.persistence.value;
      forall e :: e in r.events && e.Attempt? ==> e.file == st.available[0] && e.payload == st.contents[e.file]
    ensures r.chained <==> (exists e :: e in r.events && e.Attempt?) && t.Responded? && IsExpected(t.code)
    ensures forall i, j :: 0 <= i < j < |r.events| && r.events[i].Attempt? ==> !r.events[j].Attempt?
    ensures s.persistence.Some? ==>
      var st := s.persistence.value;
      |st.available| > 0 && st.available[0] in st.contents && CreateConnection(s.customServerUrl, net).Some? ==>
        var f := st.available[0];
        var loading := if st.contents[f] == "" then [Delete(f)] else [];
        |r.events| > |loading| && r.events[..|loading| + 1] == loading + [Attempt(f, st.contents[f], s.requestCount + 1)]
  {
    match GetPersistence(s)
    case None => Step(s, [], false)
    case Some(st) =>
      var (next, claimed) := NextAvailable(st);
      var loaded := LoadData(s.(persistence := Some(claimed)), next);
      var connection := CreateConnection(GetCustomServerUrl(s), net);
      if loaded.payload.Some? && connection.Some? then
        var sent := Send(loaded.sender, connection, next, loaded.payload, t);
        Step(sent.sender, loaded.events + sent.events, sent.chained)
      else Step(loaded.sender, loaded.events, false)
  }

  /**
   * Admission control: a dispatch starts only while fewer than
   * `MAX_REQUEST_COUNT` requests are in flight; otherwise the trigger is dropped.
   */
  function TriggerSending(s: SenderState, net: Network, t: Transport): (r: Step)
    ensures s.requestCount >= MAX_REQUEST_COUNT ==> r == Step(s, [], false)
    ensures s.requestCount < MAX_REQUEST_COUNT ==> r == SendAvailableFiles(s, net, t)
    ensures r.sender.requestCount == s.requestCount
  {
    if RequestCount(s) < MAX_REQUEST_COUNT then SendAvailableFiles(s, net, t)
    else Step(s, [], false)
  }

  datatype Trace = Trace(sender: SenderState, events: seq<Event>)

  /**
   * One external trigger followed by every dispatch it chains into. The
   * `responses` script gives the transport outcome each successive dispatch
   * meets; the run stops when a dispatch does not chain or the script ends.
   */
  function Run(s: SenderState, net: Network, responses: seq<Transport>): (r: Trace)
    ensures r.sender.requestCount == s.requestCount
    ensures r.sender.customServerUrl == s.customServerUrl
    ensures r.sender.persistence.Some? <==> s.persistence.Some?
    ensures forall e :: e in r.events && e.Attempt? ==> e.inFlight == s.requestCount + 1
    decreases |responses|
  {
    if |responses| == 0 then Trace(s, [])
    else
      var step := TriggerSending(s, net, responses[0]);
      if step.chained then
        var rest := Run(step.sender, net, responses[1..]);
        Trace(rest.sender, step.events + rest.events)
      else Trace(step.sender, step.events)
  }
}

=== FILE: sender_properties.dfy ===
/**
 * Properties of the sender that relate several operations or whole runs:
 * the persistence stays well formed, a released persistence makes the sender
 * a no-op, outcome handling is idempotent, one trigger drains the queue when
 * every response is expected, and the two places where the code's behaviour
 * differs from what its surroundings suggest.
 */
module SenderProperties {
  import opened Wrappers
  import opened StatusCodes
  import opened Persistence
  import opened Connection
  import opened Sender

  /** Every available file can be read. */
  predicate Loadable(st: Store) {
    forall f :: f in st.available ==> f in st.contents
  }

  /** Every scripted response carries an expected code. */
  predicate AllExpected(responses: seq<Transport>) {
    forall i :: 0 <= i < |responses| ==> responses[i].Responded? && IsExpected(responses[i].code)
  }

  /** The counter is back where it started after any run, so from zero it is never negative. */
  lemma CounterNeverNegative(s: SenderState, net: Network, responses: seq<Transport>)
    requires s.requestCount >= 0
    ensures Run(s, net, responses).sender.requestCount >= 0
    ensures forall e :: e in Run(s, net, responses).events && e.Attempt? ==> e.inFlight >= 1
  {
  }

  /** Once the persistence is released, a trigger and the whole run it starts do nothing. */
  lemma ReleasedPersistenceIsNoOp(s: SenderState, net: Network, responses: seq<Transport>)
    requires |responses| > 0
    ensures TriggerSending(ReleasePersistence(s), net, responses[0]) == Step(ReleasePersistence(s), [], false)
    ensures Run(ReleasePersistence(s), net, responses) == Trace(ReleasePersistence(s), [])
  {
  }

  /**
   * Handling the same response code for the same file twice performs the same
   * queue action both times, and leaves the persistence as handling it once does.
   */
  lemma OnResponseIdempotent(s: SenderState, code: int, f: File)
    ensures var once := OnResponse(s, code, f);
            var twice := OnResponse(once.sender, code, f);
            QueueActions(twice.events) == QueueActions(once.events)
            && twice.sender.persistence == once.sender.persistence
  {
    if s.persistence.Some? {
      var st := s.persistence.value;
      if IsRecoverableError(code) {
        MakeAvailableIdempotent(st, f);
      } else {
        DeleteFileIdempotent(st, f);
      }
    }
  }

  /** A trigger keeps the persistence well formed, whatever the transport outcome. */
  lemma TriggerSendingPreservesValid(s: SenderState, net: Network, t: Transport)
    requires s.persistence.Some? && Valid(s.persistence.value)
    ensures TriggerSending(s, net, t).sender.persistence.Some?
    ensures Valid(TriggerSending(s, net, t).sender.persistence.value)
  {
  }

  /** A whole run keeps the persistence well formed. */
  lemma {:induction false} RunPreservesValid(s: SenderState, net: Network, responses: seq<Transport>)
    requires s.persistence.Some? && Valid(s.persistence.value)
    ensures Run(s, net, responses).sender.persistence.Some?
    ensures Valid(Run(s, net, responses).sender.persistence.value)
    decreases |responses|
  {
    if |responses| > 0 {
      var step := TriggerSending(s, net, responses[0]);
      TriggerSendingPreservesValid(s, net, responses[0]);
      if step.chained {
        RunPreservesValid(step.sender, net, responses[1..]);
      }
    }
  }

  /**
   * One dispatch that meets an expected code removes the first available file
   * for good and asks for the next dispatch. This holds also when the file's
   * text is empty: it is deleted on loading, sent anyway, and deleted again.
   */
  lemma SuccessfulDispatch(s: SenderState, net: Network, t: Transport)
    requires s.persistence.Some? && Valid(s.persistence.value) && Loadable(s.persistence.value)
    requires |s.persistence.value.available| > 0
    requires s.requestCount < MAX_REQUEST_COUNT
    requires CreateConnection(s.customServerUrl, net).Some?
    requires t.Responded? && IsExpected(t.code)
    ensures var st := s.persistence.value;
            var f := st.available[0];
            var r := TriggerSending(s, net, t);
            && r.chained
            && r.sender.requestCount == s.requestCount
            && r.sender.customServerUrl == s.customServerUrl
            && r.sender.persistence
               == Some(st.(available := st.available[1..], deleted := st.deleted + {f}, contents := st.contents - {f}))
  {
    var st := s.persistence.value;
    var f := st.available[0];
    var (next, claimed) := NextAvailable(st);
    assert next == Some(f);
    assert f !in st.available[1..];
    assert Without(claimed.available, f) == claimed.available;
    var loaded := LoadData(s.(persistence := Some(claimed)), next);
    assert loaded.payload == Some(st.contents[f]);
    if st.contents[f] == "" {
      DeleteFileIdempotent(claimed, f);
    }
  }

  /**
   * One dispatch that meets a recoverable code or an I/O error returns the
   * first available file to the end of the available files and does not chain.
   */
  lemma FailedDispatchRequeues(s: SenderState, net: Network, t: Transport)
    requires s.persistence.Some? && Valid(s.persistence.value) && Loadable(s.persistence.value)
    requires |s.persistence.value.available| > 0
    requires s.persistence.value.contents[s.persistence.value.available[0]] != ""
    requires s.requestCount < MAX_REQUEST_COUNT
    requires CreateConnection(s.customServerUrl, net).Some?
    requires t.IOFailure? || IsRecoverableError(t.code)
    ensures var st := s.persistence.value;
            var f := st.available[0];
            var r := TriggerSending(s, net, t);
            && !r.chained
            && r.sender.requestCount == s.requestCount
            && r.sender.persistence == Some(st.(available := st.available[1..] + [f]))
  {
  }

  /**
   * Drain chaining: with every response expected and enough of them, a single
   * trigger empties the available files, deleting each of them, without any
   * further external trigger.
   */
  lemma {:induction false} DrainChaining(s: SenderState, net: Network, responses: seq<Transport>)
    requires s.persistence.Some? && Valid(s.persistence.value) && Loadable(s.persistence.value)
    requires s.requestCount < MAX_REQUEST_COUNT
    requires CreateConnection(s.customServerUrl, net).Some?
    requires AllExpected(responses) && |responses| >= |s.persistence.value.available|
    ensures var fin := Run(s, net, responses).sender.persistence;
            && fin.Some?
            && fin.value.available == []
            && fin.value.claimed == s.persistence.value.claimed
            && s.persistence.value.deleted <= fin.value.deleted
            && forall f :: f in s.persistence.value.available ==> f in fin.value.deleted
    decreases |s.persistence.value.available|
  {
    var st := s.persistence.value;
    if |st.available| > 0 {
      var f := st.available[0];
      var step := TriggerSending(s, net, responses[0]);
      SuccessfulDispatch(s, net, responses[0]);
      var st' := step.sender.persistence.value;
      assert forall g :: g in st'.available ==> g in st.available && g != f;
      assert Valid(st');
      assert Loadable(st');
      DrainChaining(step.sender, net, responses[1..]);
      assert Run(s, net, responses) == Trace(Run(step.sender, net, responses[1..]).sender,
                                             step.events + Run(step.sender, net, responses[1..]).events);
      assert forall g :: g in st.available ==> g == f || g in st'.available;
    }
  }

  /** Three queued batches and one trigger: all three are deleted when every response is 200. */
  lemma ThreeBatchesDrain(net: Network)
    requires net.opens && net.wellFormed(DEFAULT_ENDPOINT_URL)
    ensures var queue := [File(1), File(2), File(3)];
            var st := Store(queue, {}, {}, map[File(1) := "a", File(2) := "b", File(3) := "c"]);
            var s := SetPersistence(Initial, st);
            var fin := Run(s, net, [Responded(200), Responded(200), Responded(200)]).sender;
            && fin.persistence.Some?
            && fin.persistence.value.available == []
            && fin.persistence.value.deleted == {File(1), File(2), File(3)}
  {
    var queue := [File(1), File(2), File(3)];
    var st := Store(queue, {}, {}, map[File(1) := "a", File(2) := "b", File(3) := "c"]);
    var s := SetPersistence(Initial, st);
    var responses := [Responded(200), Responded(200), Responded(200)];
    assert Valid(st);
    DrainChaining(s, net, responses);
    RunDeletesOnlyClaimedOrAvailable(s, net, responses);
  }

  /** A run deletes no file that was neither available nor claimed, nor one already deleted. */
  lemma {:induction false} RunDeletesOnlyClaimedOrAvailable(s: SenderState, net: Network, responses: seq<Transport>)
    requires s.persistence.Some? && Valid(s.persistence.value)
    ensures var st := s.persistence.value;
            var fin := Run(s, net, responses).sender.persistence;
            fin.Some? && forall f :: f in fin.value.deleted ==> f in st.deleted || f in st.available || f in st.claimed
    decreases |responses|
  {
    if |responses| > 0 {
      var step := TriggerSending(s, net, responses[0]);
      TriggerSendingDeletesOnlyClaimedOrAvailable(s, net, responses[0]);
      if step.chained {
        TriggerSendingPreservesValid(s, net, responses[0]);
        RunDeletesOnlyClaimedOrAvailable(step.sender, net, responses[1..]);
      }
    }
  }

  /** A single trigger deletes at most the file it claims, or files already claimed. */
  lemma TriggerSendingDeletesOnlyClaimedOrAvailable(s: SenderState, net: Network, t: Transport)
    requires s.persistence.Some? && Valid(s.persistence.value)
    ensures var st := s.persistence.value;
            var fin := TriggerSending(s, net, t).sender.persistence;
            && fin.Some?
            && (forall f :: f in fin.value.deleted ==> f in st.deleted || f in st.available || f in st.claimed)
            && (forall f :: f in fin.value.available || f in fin.value.claimed ==> f in st.available || f in st.claimed)
  {
  }

  /**
   * As written, a file whose persisted text is empty is deleted on loading and
   * then still sent: the dispatch issues a request carrying the empty text.
   */
  lemma EmptyPayloadIsDeletedAndStillSent(s: SenderState, net: Network, t: Transport)
    requires s.persistence.Some? && |s.persistence.value.available| > 0
    requires Load(s.persistence.value, s.persistence.value.available[0]) == Some("")
    requires s.requestCount < MAX_REQUEST_COUNT
    requires CreateConnection(s.customServerUrl, net).Some?
    ensures var f := s.persistence.value.available[0];
            var r := TriggerSending(s, net, t);
            |r.events| >= 2 && r.events[0] == Delete(f) && r.events[1] == Attempt(f, "", s.requestCount + 1)
  {
  }

  /**
   * When no connection can be created (for instance a malformed custom URL),
   * the claimed file is neither sent, returned nor deleted: it stays claimed.
   */
  lemma NoConnectionLeavesFileClaimed(s: SenderState, net: Network, t: Transport)
    requires s.persistence.Some? && Valid(s.persistence.value) && Loadable(s.persistence.value)
    requires |s.persistence.value.available| > 0
    requires s.persistence.value.contents[s.persistence.value.available[0]] != ""
    requires s.requestCount < MAX_REQUEST_COUNT
    requires CreateConnection(s.customServerUrl, net).None?
    ensures var f := s.persistence.value.available[0];
            var r := TriggerSending(s, net, t);
            && r.events == []
            && !r.chained
            && f in r.sender.persistence.value.claimed
            && f !in r.sender.persistence.value.available
            && f !in r.sender.persistence.value.deleted
  {
  }

  /** With a custom URL that does not parse, a trigger never issues a request. */
  lemma MalformedCustomUrlSendsNothing(s: SenderState, url: string, net: Network, t: Transport)
    requires !net.wellFormed(url)
    ensures forall e :: e in TriggerSending(SetCustomServerUrl(s, Some(url)), net, t).events ==> !e.Attempt?
    ensures !TriggerSending(SetCustomServerUrl(s, Some(url)), net, t).chained
  {
    MalformedCustomUrlGivesNoConnection(url, net);
  }
}

=== FILE: status_codes.dfy ===
/**
 * Classification of HTTP response codes returned by the ingestion endpoint:
 * a code is expected (the batch was accepted), a recoverable error (send the
 * batch again later) or unexpected (drop the batch).
 */
module StatusCodes {

  const HTTP_OK: int := 200
  const HTTP_NOT_AUTHORITATIVE: int := 203
  const HTTP_CLIENT_TIMEOUT: int := 408
  const TOO_MANY_REQUESTS: int := 429
  const HTTP_INTERNAL_ERROR: int := 500
  const SERVICE_UNAVAILABLE: int := 503
  const NETWORK_AUTHENTICATION_REQUIRED: int := 511

  /** The recoverable codes, in the order the sender lists them. */
  const RecoverableCodes: seq<int> :=
    [HTTP_CLIENT_TIMEOUT, TOO_MANY_REQUESTS, HTTP_INTERNAL_ERROR, SERVICE_UNAVAILABLE, NETWORK_AUTHENTICATION_REQUIRED]

  /** Linear search of a list, as a list's `contains` does it. */
  function Contains(xs: seq<int>, x: int): (r: bool)
    ensures r <==> x in xs
  {
    if |xs| == 0 then false
    else xs[0] == x || Contains(xs[1..], x)
  }

  /** A code from which the sender recovers by sending the batch again later. */
  function IsRecoverableError(code: int): (r: bool)
    ensures r <==> code in {408, 429, 500, 503, 511}
  {
    Contains(RecoverableCodes, code)
  }

  /** A code the sender regards as successful completion: OK through Non-Authoritative-Information. */
  function IsExpected(code: int): (r: bool)
    ensures r <==> code in {200, 201, 202, 203}
  {
    HTTP_OK <= code <= HTTP_NOT_AUTHORITATIVE
  }

  datatype Outcome = Success | RecoverableError | UnexpectedError

  /**
   * The outcome of a response code, decided in the order the response handler
   * decides it: the recoverable test first, then the expected test.
   */
  function Classify(code: int): (o: Outcome)
    ensures o == Success <==> IsExpected(code)
    ensures o == RecoverableError <==> IsRecoverableError(code)
    ensures o == UnexpectedError <==> !IsExpected(code) && !IsRecoverableError(code)
  {
    if IsRecoverableError(code) then RecoverableError
    else if IsExpected(code) then Success
    else UnexpectedError
  }

  /** No code is both expected and recoverable, so the three outcomes partition the codes. */
  lemma ClassifierPartition(code: int)
    ensures !(IsExpected(code) && IsRecoverableError(code))
  {
  }

  /** Representative codes of each class, including 2xx and 5xx codes outside both sets. */
  lemma ClassificationExamples()
    ensures Classify(200) == Success && Classify(203) == Success
    ensures Classify(204) == UnexpectedError && Classify(199) == UnexpectedError
    ensures Classify(408) == RecoverableError && Classify(429) == RecoverableError
    ensures Classify(500) == RecoverableError && Classify(503) == RecoverableError
    ensures Classify(511) == RecoverableError
    ensures Classify(400) == UnexpectedError && Classify(401) == UnexpectedError
    ensures Classify(404) == UnexpectedError && Classify(502) == UnexpectedError
  {
  }
}

=== FILE: wrappers.dfy ===
/** Optional values, standing in for Java references that may be null. */
module Wrappers {

  datatype Option<+T> = None | Some(value: T) {

    /** The wrapped value, or `default` when there is none. */
    function GetOr(default: T): T {
      match this
      case Some(v) => v
      case None => default
    }
  }
}
